=== FILE: README.md ===
# Cookie design editor: transform, interaction and compositing model

This project models the design engine of a cookie personalisation storefront. A shopper places an
uploaded photo and a caption on a cookie silhouette (circle, square or rect), moves and resizes
them with the pointer, and at checkout the design is flattened into one PNG. The model covers:

- the transform model (`Transform`): damped, clamped drags of the image (±100) and the caption
  (±200), and corner-specific resizing clamped to [0.3, 3]. A pointer move is a function of the
  gesture snapshot taken on pointer-down and the current pointer position, so a whole stream of
  moves gives what its last move gives;
- the layout numbers (`Layout`): the caption box (also the click hit-test region), the image
  selection box, and the pixel rectangle handed to the compositor;
- the editor component (`Customizer.CookieCustomizer`): a class whose fields are the component
  state and whose methods are the pointer, upload, modal, quantity and checkout handlers. Its
  invariant `Valid()` says that dragging and resizing never hold at once, that every offset and the
  scale stay in bounds, and that at most one layer is selected;
- the compositor (`Compositor`, over the canvas model in `Drawing`). It draws the prototype, then
  the photo on a scratch surface cut by the shape's mask in `destination-in` mode, then the
  upper-cased caption. A canvas records the drawing operations with the paint in force; no pixels
  are modelled;
- the fallback DOM capture (`Capture`). It hides the controls, rasterises, and restores every
  control's display on success and on failure alike;
- the price (`Pricing`), in cents, and the shape table and mask lookup (`Shapes`).

The browser is modelled as inputs. These are the pointer coordinates, the viewport width, the
clock value `now`, the set of URLs that fail to load, and whether each 2D context is granted. The
rasteriser (html2canvas) is a function parameter of what it sees and of its configuration.

Three behaviours of the code are worth knowing when reading the model:

- The image selection box moves 0.1 % of the preview per offset unit
  (web/components/cookie-customizer.tsx:643-647). The checkout export moves the photo 0.5 px per
  unit on a 600 px canvas (web/components/cookie-customizer.tsx:280-283), which is 1/12 % per unit.
  `Layout.ExportCentreMatchesPreviewIffCentred` proves that the two positions agree only at offset
  zero. The caption position and the photo size do agree between preview and export; see
  `Customizer.CheckoutMatchesPreview`.
- Every gesture start handler overwrites the gesture record, even while a gesture is in progress
  (web/components/cookie-customizer.tsx:448, 472, 496). The model's start methods do the same.
- The amount field's placeholder asks for at least 12 (web/components/cookie-customizer.tsx:884).
  Yet an amount typed while "MORE" is already selected is stored and priced as typed, even when it
  is below 12 or negative (web/components/cookie-customizer.tsx:887-892).

## Model

| member | source | states |
|---|---|---|
| Transform.Clamp | web/components/cookie-customizer.tsx:521-522 | `max(lo, min(hi, v))` lies in [lo, hi], is `v` inside the range and the nearer bound outside it |
| Transform.DragAxis | web/components/cookie-customizer.tsx:520-535 | one drag axis is start + delta/2 when that is within ±max, and the saturated bound otherwise |
| Transform.DraggedPosition | web/components/cookie-customizer.tsx:517-541 | a drag moves x and y independently, each by the one-axis rule |
| Transform.Outward | web/components/cookie-customizer.tsx:546-561 | every handle's outward direction is a diagonal: each component is +1 or -1 |
| Transform.ResizeFactor | web/components/cookie-customizer.tsx:544-561 | the per-corner factor equals 1 + 0.002 · (outward direction · pointer delta), for every handle including the default case |
| Transform.ResizedScale | web/components/cookie-customizer.tsx:563 | the new scale always lies in [0.3, 3] and is start scale × factor whenever that product is in range |
| Transform.OutwardPullGrows | web/components/cookie-customizer.tsx:546-561 | pulling any handle away from the centre never makes the factor smaller than 1 |
| Transform.AfterMove | web/components/cookie-customizer.tsx:510-568 | outside a gesture a move changes nothing; an image drag writes only the image position, a text drag only the text position, an image resize only the scale; bounds are preserved |
| Transform.LastMoveWins | web/components/cookie-customizer.tsx:514-515 | deltas come from the stored start, so a second move overrides the first |
| Transform.ApplyMoves | web/components/cookie-customizer.tsx:510-568 | a stream of moves keeps every offset and the scale within bounds |
| Transform.PathIndependent | web/components/cookie-customizer.tsx:512-565 | after any non-empty stream of moves, the layers are those the last move alone produces |
| Transform.ScaleStaysInRange | web/components/cookie-customizer.tsx:542-564 | during a resize, no stream of moves takes the scale out of [0.3, 3], and neither position changes |
| Layout.TextDimensions | web/components/cookie-customizer.tsx:365-379 | box width is clamp(3·len, 30, 90) + 4, so it lies in [34, 94]; height is always 12 |
| Layout.TextWidthMonotone | web/components/cookie-customizer.tsx:372 | a longer caption never gets a narrower box |
| Layout.TextBox | web/components/cookie-customizer.tsx:382-396 | the caption box is centred at (50 + 0.1·x, 75 + 0.1·y) percent with the caption dimensions |
| Layout.SelectsText | web/components/cookie-customizer.tsx:420-432 | a click selects the caption iff it is inside the caption box, edges included, and the caption is non-empty; the box is sized by the caption's UTF-16 length |
| Strings.Utf16Length | web/components/cookie-customizer.tsx:366 | the caption's `length` counts UTF-16 code units: between one and two per character, exactly one each when every character is below U+10000, and more than the character count otherwise |
| Layout.ClickAtTextCentreSelects | web/components/cookie-customizer.tsx:421-432 | clicking the centre of a non-empty caption's box always selects it |
| Layout.ImageTransformBox | web/components/cookie-customizer.tsx:632-656 | the image box is size·scale wide and high and is centred at (50 + 0.1·x, 50 + 0.1·y) percent |
| Layout.ImageBoxCentreIgnoresScale | web/components/cookie-customizer.tsx:637-647 | rescaling never moves the image box's centre |
| Layout.OverlayRect | web/components/cookie-customizer.tsx:275-283 | the export rectangle is size/100·600·scale wide and high and is centred at (300 + 0.5·x, 300 + 0.5·y) px |
| Layout.ExportSizeMatchesPreview | web/components/cookie-customizer.tsx:275-277 | the exported photo covers the same share of the canvas as the image box does of the preview |
| Layout.ExportCentreMatchesPreviewIffCentred | web/components/cookie-customizer.tsx:280-283 | the exported image centre lies at 50 + x/12 percent, which matches the preview box iff the offset is zero |
| Pricing.CurrentQuantity | web/components/cookie-customizer.tsx:135-138 | the batch buttons give 24, 48 and 72; "MORE" gives the typed-in amount |
| Pricing.TotalCents | web/components/cookie-customizer.tsx:140-143 | the total is a whole multiple of 125 cents, and the multiple is the current quantity |
| Pricing.PresetPrices | web/components/cookie-customizer.tsx:134-143 | the batches cost $30, $60 and $90, and the 48-cookie price ignores the typed-in amount |
| Pricing.PriceMonotone | web/components/cookie-customizer.tsx:135-143 | for any two orders, whatever buttons they came from, one costs at most (strictly less than) the other iff it has at most (strictly fewer) cookies |
| Shapes.FindShape | web/components/cookie-customizer.tsx:272-273 | `find` returns the first entry with the id, and returns one iff some entry has it |
| Shapes.ShapeTableComplete | web/components/cookie-customizer.tsx:595-614 | circle, square and rect are found with their own prototypes; an unknown id is not found |
| Shapes.MaskFor | web/components/imageGenerator.ts:211 | a shape in the mask map gets its own mask; any other name gets the circle mask |
| Shapes.MasksDistinct | web/components/imageGenerator.ts:166-170 | the three shapes have three different masks, and every other name falls back to the circle's |
| Strings.ToUpper | web/components/imageGenerator.ts:278 | upper-casing keeps the length and maps each character on its own: a lower-case letter to its capital, anything else to itself |
| Strings.NatToDecimal | web/components/imageGenerator.ts:182 | a timestamp prints as a non-empty string of digits without a leading zero |
| Strings.DecimalRoundTrip | web/components/imageGenerator.ts:182 | reading the printed timestamp back gives the timestamp |
| Compositor.CacheBusted | web/components/imageGenerator.ts:182-183 | the requested URL starts with the original source, then `?t=`, then digits that read back as the timestamp |
| Compositor.LoadImage | web/components/imageGenerator.ts:172-185 | a load succeeds iff the cache-busted URL is reachable; on success that URL is what gets drawn |
| Compositor.WithDefaults | web/components/imageGenerator.ts:190-202 | undefined arguments default to 600×600, black, sans-serif, offset (0,0), size 32; given ones are kept |
| Compositor.TextAnchor | web/components/imageGenerator.ts:272-273 | at offset (0,0) the caption is centred at (width/2, 0.75·height) |
| Compositor.TextAnchorMatchesPreview | web/components/imageGenerator.ts:272-273 | in percent of the canvas, the caption anchor equals the centre of the editor's caption box |
| Compositor.CaptionPaint | web/components/imageGenerator.ts:265-277 | the caption is painted bold in the chosen size, font family and colour, centred on its anchor, with a 4 px half-black shadow, in plain `source-over` mode |
| Compositor.CompositeOrder | web/components/imageGenerator.ts:224-280 | the base fills the canvas first, the masked scratch surface comes second, and the upper-cased caption is last and present iff the text is non-empty |
| Compositor.MaskAppliedAfterPhoto | web/components/imageGenerator.ts:241-258 | the scratch surface is cleared, gets the photo at the transform rectangle, then the shape's mask; the mask is the only `destination-in` step |
| Compositor.ImagesFetchedFromTheirSources | web/components/imageGenerator.ts:212-216 | base, photo and mask are drawn from their own sources with the cache-buster appended |
| Compositor.ExpectedOutcome | web/components/imageGenerator.ts:210-287 | the result is the full image iff all three images load and both contexts are granted; otherwise it is the first error met, never a partial image |
| Compositor.MaskPhoto | web/components/imageGenerator.ts:234-258 | the scratch steps leave exactly the clear, photo and mask operations, and the paint back at `source-over` |
| Compositor.DrawCaption | web/components/imageGenerator.ts:264-280 | the caption step appends one upper-cased text operation at the anchor and restores the paint |
| Compositor.GenerateMaskedCookieImageForShape | web/components/imageGenerator.ts:190-288 | the step-by-step rendering on two surfaces yields exactly the expected outcome |
| Capture.HiddenAll | web/components/imageGenerator.ts:44 | every control's display is `none` |
| Capture.PrepareElementForCapture | web/components/imageGenerator.ts:39-44 | returns every control's display as it was and leaves every control hidden |
| Capture.RestoreState | web/components/imageGenerator.ts:45-49 | puts back each control's recorded display, so restoring after preparing changes nothing |
| Capture.ConfigFor | web/components/imageGenerator.ts:76-80 | defaults are no background, cross-origin loading on and scale 2; the fixed rasteriser settings are always passed |
| Capture.DefaultConfig | web/components/imageGenerator.ts:74-80 | a call that passes no options (`options = {}`) rasterises with a null background, cross-origin loading on, scale 2 and the fixed settings |
| Capture.CaptureOutcome | web/components/imageGenerator.ts:106-138 | a capture succeeds iff the rasteriser does when given that element with every control hidden and the defaulted configuration; the PNG is its result, and its error is thrown on unchanged |
| Capture.GenerateImageFromElement | web/components/imageGenerator.ts:72-139 | rasterises with the controls hidden and restores every display whether the rasteriser succeeds or throws |
| Capture.GenerateCookiePreviewImage | web/components/imageGenerator.ts:156-164 | an empty ref fails with "Preview element not found"; otherwise the capture runs and the element is left as it was |
| Customizer.DesignFilename | web/components/cookie-customizer.tsx:346 | the download name is `cookie-design-<shape>-<timestamp>.png` |
| Customizer.FilenameIdentifiesTime | web/components/cookie-customizer.tsx:346 | two downloads of one shape at different times never share a name |
| Customizer.FallbackImage | web/components/cookie-customizer.tsx:315-323 | the fallback yields nothing for an empty ref; otherwise it yields an image iff the rasteriser succeeds on that preview, and the image is the PNG of that preview with its controls hidden |
| Customizer.ComposedImage | web/components/cookie-customizer.tsx:292-311 | checkout keeps an image iff the compositor succeeds, and the image kept is the compositor's result |
| Customizer.Compose | web/components/cookie-customizer.tsx:292-311 | running the compositor gives that image |
| Customizer.Finish | web/components/cookie-customizer.tsx:345-358 | a rendered image is downloaded under `DesignFilename`; no image ends in the alert with the fixed message |
| Customizer.ActivePreview | web/components/cookie-customizer.tsx:315 | the fallback rasterises the mobile preview on a mobile layout and the desktop preview otherwise |
| Customizer.HasUpload | web/components/cookie-customizer.tsx:260 | an image counts as loaded iff its source is present and non-empty, as JavaScript truthiness of a string has it |
| Customizer.UsesComposite | web/components/cookie-customizer.tsx:260 | the compositor is used on desktop iff an image is loaded, and on mobile iff it is loaded and confirmed; it is then present |
| Customizer.CheckoutCallArguments | web/components/cookie-customizer.tsx:274-310 | the compositor gets the shape's prototype, the uploaded image at the export rectangle, a 600×600 canvas, the caption, colour and position, the chosen font or sans-serif, and size 32 |
| Customizer.CheckoutMatchesPreview | web/components/cookie-customizer.tsx:275-310 | the checkout renders 600×600; the caption lands at its box's percentage position, and the photo has its box's relative width and height |
| Customizer.CookieCustomizer.constructor | web/components/cookie-customizer.tsx:32-71 | the initial state: circle, no image, empty caption, 48 cookies, offsets (0,0), scale 1, size 85×85, idle, nothing selected |
| Customizer.CookieCustomizer.DetectViewport | web/components/cookie-customizer.tsx:83-85 | the layout is mobile iff the viewport is narrower than 768 px |
| Customizer.CookieCustomizer.ImageDragStart | web/components/cookie-customizer.tsx:443-463 | starts dragging, not resizing, from the pointer, image scale and position; selects the image only; keeps `Valid` |
| Customizer.CookieCustomizer.TextDragStart | web/components/cookie-customizer.tsx:466-488 | starts dragging the caption from its position with start scale 1; selects the caption only |
| Customizer.CookieCustomizer.ResizeStart | web/components/cookie-customizer.tsx:491-508 | starts resizing, not dragging, the image layer with the given handle; the selection is untouched |
| Customizer.CookieCustomizer.MouseMove | web/components/cookie-customizer.tsx:510-568 | the layers become `AfterMove` of the old layers; the gesture record is not in the frame, so it is unchanged |
| Customizer.CookieCustomizer.MouseUp | web/components/cookie-customizer.tsx:570-581 | the gesture record becomes the idle record; positions and scale are not in the frame |
| Customizer.CookieCustomizer.ContainerClick | web/components/cookie-customizer.tsx:406-441 | ignored during a gesture; otherwise exactly one layer ends up selected, the caption iff the hit-test says so |
| Customizer.CookieCustomizer.PlaceUploadedImage | web/components/cookie-customizer.tsx:155-171 | scale 1, offset (0,0), size 85×85; on mobile the modal opens unconfirmed, on desktop the image is selected |
| Customizer.CookieCustomizer.ImageUpload | web/components/cookie-customizer.tsx:151-175 | with no file nothing changes; with a file its data is shown at scale 1, offset (0,0) and size 85×85, in the unconfirmed modal on mobile and with the image selected on desktop |
| Customizer.CookieCustomizer.UploadClick | web/components/cookie-customizer.tsx:177-194 | shows the demo image at scale 1, offset (0,0) and size 85×85, in the unconfirmed modal on mobile and with the image selected on desktop |
| Customizer.CookieCustomizer.LooksGood | web/components/cookie-customizer.tsx:196-207 | closes the modal; confirms the image on mobile, selects it on desktop |
| Customizer.CookieCustomizer.EditClick | web/components/cookie-customizer.tsx:219-223 | the modal opens iff an image is loaded |
| Customizer.CookieCustomizer.SelectShape | web/components/cookie-customizer.tsx:789 | the selected shape becomes the clicked one |
| Customizer.CookieCustomizer.SetCustomText | web/components/cookie-customizer.tsx:830 | the caption becomes the typed text |
| Customizer.CookieCustomizer.QuantitySelect | web/components/cookie-customizer.tsx:225-232 | selects the option; the amount field shows iff it is "MORE" |
| Customizer.CookieCustomizer.CustomQuantityInput | web/components/cookie-customizer.tsx:886-893 | the amount is always stored and selects "MORE" once it reaches 12; while "MORE" is selected it is priced as typed |
| Customizer.CookieCustomizer.CapturePreview | web/components/cookie-customizer.tsx:315-323 | rasterises the mobile or desktop preview per layout, and leaves both previews as they were |
| Customizer.CookieCustomizer.RenderDesign | web/components/cookie-customizer.tsx:259-343 | running the rendering step on the live previews yields `RenderedImage` of the current design, and leaves both previews as they were |
| Customizer.RenderedImageCases | web/components/cookie-customizer.tsx:259-343 | the rendered image is the capture of the active preview when no image is ready, nothing for an unknown shape, and otherwise the compositor's image, or the capture when the compositor fails |
| Customizer.CookieCustomizer.Checkout | web/components/cookie-customizer.tsx:253-362 | the outcome is `Finish` of the current design's rendered image: its download under the design's name, or the alert when there is none; the busy flag is cleared and the previews restored on every path |
| Customizer.DragSession | web/components/cookie-customizer.tsx:584-593 | a press on the image, any moves and a release leave the editor idle and valid with the image selected; the image sits where the last move put it, or stays put when no move came; only the gesture, transform and selection fields may change, and the caption and the scale keep their values |

## Left out

- JSX rendering and the CSS strings (`getImageStyle`, `getTextStyle`, the `"...%"` values): the model keeps the numbers only.
- Listener attachment and detachment, and React state batching: each handler is modelled as one synchronous state change, and a pointer move is taken to happen only after its pointer-down.
- The click's conversion from client pixels to container percent: `ContainerClick` takes the percentages. A zero-size container, where the code would compute NaN, is not modelled.
- `FileReader`, reading the file, `document.getElementById(...).click()` (`handleChangePhoto`), `downloadImage`'s anchor click and its default name, `alert` and `console` logging. A read file enters as its data URL; the download and the alert are the checkout's outcome.
- `waitForImagesToLoad` and setting `crossOrigin` on images: asynchronous image loading is not modelled. A load is an input (the set of unreachable URLs), and `Promise.all` becomes "all three load".
- The colour modal and colour swatches, the font list and `additionalText`: UI state that only the rendering reads.
- Pixel work: canvas drawing, html2canvas and `toDataURL` are modelled as recorded operation traces and as a rasteriser parameter. `destination-in` alpha blending, floating-point rounding and `toFixed` are out of scope.
- Customizer.CookieCustomizer.Checkout: the busy flag is true during the render. With a synchronous model that is not observable, so only its final value is stated.
- Compositor.GenerateMaskedCookieImageForShape: all three loads use one clock value, and the same value names the download. In the code each `Date.now()` call may read a later time.
- Strings.ToUpper: upper-cases the ASCII letters only. `toUpperCase` also maps other Unicode letters, and can change the length (ß becomes SS).
- Compositor.WithDefaults: the width and height are natural numbers; fractional or negative canvas sizes are not modelled.
- Shapes.MaskFor: the shape is any string and a name missing from the mask map gets the circle's mask. In JavaScript, names of inherited object properties (`toString`, `constructor`) would look up an inherited value instead; the editor only ever passes shape ids, so this cannot arise from its handlers.
- The "Cookie shape not found" error is modelled, but no handler can select an id outside the shape table.

=== FILE: capture.dfy ===
/**
 * The fallback renderer: rasterises the live preview element. The interactive controls
 * inside it (selection outlines and handles) are hidden while the rasteriser runs and are
 * put back afterwards, whether the rasteriser succeeds or throws.
 *
 * An element is modelled by the `display` styles of the controls matched in it, in
 * document order; the rasteriser is a function of what it sees and of its configuration.
 */
module Capture {
  import opened Wrappers
  import opened Drawing

  const Hidden: string := "none"

  /** The displays of `n` hidden controls. */
  function HiddenAll(n: nat): (s: seq<string>)
    ensures |s| == n && forall i :: 0 <= i < n ==> s[i] == Hidden
  {
    seq(n, _ => Hidden)
  }

  /** Hides every matched control and returns the display each one had. */
  method PrepareElementForCapture(controls: array<string>) returns (originalStates: seq<string>)
    modifies controls
    ensures originalStates == old(controls[..])
    ensures controls[..] == HiddenAll(controls.Length)
  {
    originalStates := controls[..];
    var i := 0;
    while i < controls.Length
      invariant 0 <= i <= controls.Length
      invariant forall k :: 0 <= k < i ==> controls[k] == Hidden
      invariant forall k :: i <= k < controls.Length ==> controls[k] == originalStates[k]
    {
      controls[i] := Hidden;
      i := i + 1;
    }
  }

  /** The restorer PrepareElementForCapture hands back: each control gets its recorded display again. */
  method RestoreState(controls: array<string>, originalStates: seq<string>)
    requires |originalStates| == controls.Length
    modifies controls
    ensures controls[..] == originalStates
  {
    var i := 0;
    while i < controls.Length
      invariant 0 <= i <= controls.Length
      invariant forall k :: 0 <= k < i ==> controls[k] == originalStates[k]
    {
      controls[i] := originalStates[i];
      i := i + 1;
    }
  }

  /** The caller's options; `None` is a field left undefined, and `Some(None)` an explicit `null` colour. */
  datatype CaptureOptions = CaptureOptions(backgroundColor: Option<Option<string>>, useCORS: Option<bool>, scale: Option<real>)

  /** The options of a call that passes none (`options = {}`). */
  const NoOptions: CaptureOptions := CaptureOptions(None, None, None)

  /** The configuration the rasteriser is called with. */
  datatype RasterConfig = RasterConfig(
    backgroundColor: Option<string>,
    useCORS: bool,
    scale: real,
    logging: bool,
    allowTaint: bool,
    imageTimeout: nat,
    removeContainer: bool,
    foreignObjectRendering: bool)

  /** Fills in the defaults (no background, cross-origin loading on, scale 2) and the fixed settings. */
  function ConfigFor(o: CaptureOptions): (cfg: RasterConfig)
    ensures o.backgroundColor.None? ==> cfg.backgroundColor == None
    ensures o.backgroundColor.Some? ==> cfg.backgroundColor == o.backgroundColor.value
    ensures cfg.useCORS == (o.useCORS.None? || o.useCORS.value)
    ensures o.scale.None? ==> cfg.scale == 2.0
    ensures o.scale.Some? ==> cfg.scale == o.scale.value
    ensures cfg.logging && cfg.allowTaint && cfg.imageTimeout == 0 && cfg.removeContainer && !cfg.foreignObjectRendering
  {
    RasterConfig(
      match o.backgroundColor case Some(c) => c case None => None,
      match o.useCORS case Some(u) => u case None => true,
      match o.scale case Some(s) => s case None => 2.0,
      true, true, 0, true, false)
  }

  /** A call without options rasterises with no background, cross-origin loading on and scale 2. */
  lemma DefaultConfig()
    ensures ConfigFor(NoOptions) == RasterConfig(None, true, 2.0, true, true, 0, true, false)
  {
  }

  /**
   * The rasteriser: given the element, the displays its controls have at that moment and the
   * configuration, a PNG data URL or the message it threw.
   */
  type Rasteriser = (array<string>, seq<string>, RasterConfig) -> Result<string, string>

  datatype CaptureError = RasterError(message: string) | PreviewElementNotFound

  /** What a capture of `element` returns: the rasterisation of that element with all its controls hidden. */
  function CaptureOutcome(element: array<string>, options: CaptureOptions, rasterise: Rasteriser): (r: Result<DataUrl, CaptureError>)
    ensures r.Success? <==> rasterise(element, HiddenAll(element.Length), ConfigFor(options)).Success?
    ensures r.Success? ==> r.value == Captured(rasterise(element, HiddenAll(element.Length), ConfigFor(options)).value)
    ensures r.Failure? ==> r.error == RasterError(rasterise(element, HiddenAll(element.Length), ConfigFor(options)).error)
  {
    match rasterise(element, HiddenAll(element.Length), ConfigFor(options))
    case Success(png) => Success(Captured(png))
    case Failure(e) => Failure(RasterError(e))
  }

  /**
   * Rasterises `element` with its controls hidden; the controls are restored on both the
   * success and the error path, and an error is thrown on unchanged.
   */
  method GenerateImageFromElement(element: array<string>, options: CaptureOptions, rasterise: Rasteriser)
    returns (r: Result<DataUrl, CaptureError>)
    modifies element
    ensures element[..] == old(element[..])
    ensures r == CaptureOutcome(element, options, rasterise)
  {
    var cfg := ConfigFor(options);
    var restore := PrepareElementForCapture(element);
    // try
    var outcome := rasterise(element, element[..], cfg);
    match outcome {
      case Success(png) => r := Success(Captured(png));
      case Failure(e) => r := Failure(RasterError(e));
    }
    // finally
    RestoreState(element, restore);
  }

  /** The ref-based entry point: an empty ref throws before anything is hidden. */
  method GenerateCookiePreviewImage(previewRef: array?<string>, options: CaptureOptions, rasterise: Rasteriser)
    returns (r: Result<DataUrl, CaptureError>)
    modifies previewRef
    ensures previewRef == null ==> r == Failure(PreviewElementNotFound)
    ensures previewRef != null ==> r == CaptureOutcome(previewRef, options, rasterise)
    ensures previewRef != null ==> previewRef[..] == old(previewRef[..])
  {
    if previewRef == null {
      return Failure(PreviewElementNotFound);
    }
    r := GenerateImageFromElement(previewRef, options, rasterise);
  }
}

=== FILE: compositor.dfy ===
/**
 * The primary renderer: flattens the design into one image by drawing the shape's
 * prototype, the user's photo cut to the shape's mask, and the caption, in that order.
 */
module Compositor {
  import opened Wrappers
  import opened Geometry
  import opened Strings
  import opened Shapes
  import opened Drawing
  import Layout

  /** The call's parameters; `None` is an argument left undefined, which takes its default. */
  datatype MaskedCookieImageParams = MaskedCookieImageParams(
    baseImageUrl: string,
    overlayImageUrl: string,
    shape: string,
    overlayTransform: Rect,
    width: Option<nat>,
    height: Option<nat>,
    text: Option<string>,
    textColor: Option<string>,
    textFont: Option<string>,
    textPosition: Option<Vec2>,
    textSize: Option<real>)

  /** The parameters with every default filled in; an undefined caption is the empty one. */
  datatype Composition = Composition(
    baseImageUrl: string,
    overlayImageUrl: string,
    shape: string,
    overlayTransform: Rect,
    width: nat,
    height: nat,
    text: string,
    textColor: string,
    textFont: string,
    textPosition: Vec2,
    textSize: real)

  function WithDefaults(p: MaskedCookieImageParams): (c: Composition)
    ensures p.width == None ==> c.width == 600
    ensures p.height == None ==> c.height == 600
    ensures p.textColor == None ==> c.textColor == "#000000"
    ensures p.textFont == None ==> c.textFont == "sans-serif"
    ensures p.textPosition == None ==> c.textPosition == Origin
    ensures p.textSize == None ==> c.textSize == 32.0
    ensures p.text == None ==> c.text == []
    ensures p.width.Some? ==> c.width == p.width.value
    ensures p.height.Some? ==> c.height == p.height.value
    ensures p.text.Some? ==> c.text == p.text.value
    ensures p.textColor.Some? ==> c.textColor == p.textColor.value
    ensures p.textFont.Some? ==> c.textFont == p.textFont.value
    ensures p.textPosition.Some? ==> c.textPosition == p.textPosition.value
    ensures p.textSize.Some? ==> c.textSize == p.textSize.value
    ensures c.baseImageUrl == p.baseImageUrl && c.overlayImageUrl == p.overlayImageUrl
    ensures c.shape == p.shape && c.overlayTransform == p.overlayTransform
  {
    Composition(
      p.baseImageUrl, p.overlayImageUrl, p.shape, p.overlayTransform,
      match p.width case Some(w) => w case None => 600,
      match p.height case Some(h) => h case None => 600,
      match p.text case Some(t) => t case None => [],
      match p.textColor case Some(t) => t case None => "#000000",
      match p.textFont case Some(f) => f case None => "sans-serif",
      match p.textPosition case Some(q) => q case None => Origin,
      match p.textSize case Some(s) => s case None => 32.0)
  }

  /** The browser as the compositor sees it: the clock, the URLs that fail to load, and whether each 2D context is granted. */
  datatype Browser = Browser(now: nat, unreachable: set<string>, mainContext: bool, scratchContext: bool)

  /** The thrown errors: an image that did not load, or a canvas without a 2D context. */
  datatype CompositeError = AssetLoadError | ContextUnavailable(message: string)

  /** The URL actually requested for `src`: a `?t=<now>` query keeps the browser from serving a cached copy. */
  function CacheBusted(src: string, now: nat): (url: string)
    ensures |url| > |src| + 3 && url[..|src|] == src
    ensures url[|src|..|src| + 3] == "?t="
    ensures forall i :: |src| + 3 <= i < |url| ==> IsDigit(url[i])
    ensures ParseDecimal(url[|src| + 3..]) == now
  {
    var url := src + "?t=" + NatToDecimal(now);
    assert url[|src| + 3..] == NatToDecimal(now);
    DecimalRoundTrip(now);
    url
  }

  /** Loading one image; the error of a failed load is thrown on. */
  function LoadImage(src: string, b: Browser): (r: Result<Picture, CompositeError>)
    ensures r.Success? <==> CacheBusted(src, b.now) !in b.unreachable
    ensures r.Success? ==> r.value == Fetched(CacheBusted(src, b.now))
    ensures r.Failure? ==> r.error == AssetLoadError
  {
    var url := CacheBusted(src, b.now);
    if url in b.unreachable then Failure(AssetLoadError) else Success(Fetched(url))
  }

  /** All three images of a composition load. */
  predicate AssetsLoad(c: Composition, b: Browser)
  {
    && CacheBusted(c.baseImageUrl, b.now) !in b.unreachable
    && CacheBusted(c.overlayImageUrl, b.now) !in b.unreachable
    && CacheBusted(MaskFor(c.shape), b.now) !in b.unreachable
  }

  /** Where the caption is centred, in canvas pixels: offsets are 0.1 % of the canvas per unit. */
  function TextAnchor(width: nat, height: nat, offset: Vec2): (at: Vec2)
    ensures offset == Origin ==> at == Vec2(width as real / 2.0, 0.75 * height as real)
  {
    Vec2(width as real / 2.0 + offset.x * 0.1 * width as real / 100.0,
         height as real * 0.75 + offset.y * 0.1 * height as real / 100.0)
  }

  /** The caption sits where the editor shows its box: same percentage of the canvas on both axes. */
  lemma {:induction false} TextAnchorMatchesPreview(width: nat, height: nat, offset: Vec2, textLength: nat)
    requires width > 0 && height > 0
    ensures TextAnchor(width, height, offset).x / width as real * 100.0 == Center(Layout.TextBox(offset, textLength)).x
    ensures TextAnchor(width, height, offset).y / height as real * 100.0 == Center(Layout.TextBox(offset, textLength)).y
  {
    var w, h := width as real, height as real;
    var kx, ky := 50.0 + 0.1 * offset.x, 75.0 + 0.1 * offset.y;
    assert Center(Layout.TextBox(offset, textLength)).x == kx;
    assert TextAnchor(width, height, offset).x == w * (kx / 100.0);
    assert TextAnchor(width, height, offset).y == h * (ky / 100.0);
    DivideOut(w, kx / 100.0);
    DivideOut(h, ky / 100.0);
  }

  lemma DivideOut(w: real, m: real)
    requires w != 0.0
    ensures (w * m) / w * 100.0 == m * 100.0
  {
    assert (w * m) / w == m;
  }

  /** The paint of the caption: bold, in the chosen size, family and colour, centred, with a soft shadow. */
  function CaptionPaint(c: Composition): (p: Paint)
    ensures p.font == Font(true, c.textSize, c.textFont) && p.fillStyle == c.textColor
    ensures p.textAlign == "center" && p.textBaseline == "middle"
    ensures p.shadowColor == "rgba(0,0,0,0.5)" && p.shadowBlur == 4.0
    ensures p.composite == SourceOver
  {
    DefaultPaint.(font := Font(true, c.textSize, c.textFont), fillStyle := c.textColor,
                  textAlign := "center", textBaseline := "middle",
                  shadowColor := "rgba(0,0,0,0.5)", shadowBlur := 4.0)
  }

  function FullCanvas(c: Composition): Rect
  {
    Rect(0.0, 0.0, c.width as real, c.height as real)
  }

  /** What the scratch surface ends with: the photo at its rectangle, then the mask kept-where-opaque. */
  function ScratchTrace(c: Composition, now: nat): seq<DrawOp>
  {
    [ ClearRect(FullCanvas(c)),
      DrawImage(Fetched(CacheBusted(c.overlayImageUrl, now)), c.overlayTransform, DefaultPaint),
      DrawImage(Fetched(CacheBusted(MaskFor(c.shape), now)), FullCanvas(c), DefaultPaint.(composite := DestinationIn)) ]
  }

  /** What the output surface ends with: base, masked photo, then the upper-cased caption if there is one. */
  function ExpectedTrace(c: Composition, now: nat): seq<DrawOp>
  {
    [ DrawImage(Fetched(CacheBusted(c.baseImageUrl, now)), FullCanvas(c), DefaultPaint),
      DrawImage(Snapshot(ScratchTrace(c, now)), FullCanvas(c), DefaultPaint) ]
    + (if c.text != [] then [FillText(ToUpper(c.text), TextAnchor(c.width, c.height, c.textPosition), CaptionPaint(c))]
       else [])
  }

  /**
   * The drawing order: the base fills the canvas first; the photo, drawn on a cleared scratch
   * surface and then cut by the shape's mask, comes second; the caption, present exactly when
   * the text is non-empty, is drawn last and upper-cased.
   */
  lemma CompositeOrder(c: Composition, now: nat)
    ensures var t := ExpectedTrace(c, now);
      && |t| == (if c.text != [] then 3 else 2)
      && t[0] == DrawImage(Fetched(CacheBusted(c.baseImageUrl, now)), FullCanvas(c), DefaultPaint)
      && t[1].DrawImage? && t[1].picture.Snapshot? && t[1].paint.composite == SourceOver
      && (c.text != [] ==> t[2].FillText? && t[2].text == ToUpper(c.text))
      && (forall i :: 0 <= i < |t| && t[i].FillText? ==> i == |t| - 1)
  {
  }

  /** On the scratch surface the mask comes after the photo and is the only step in `destination-in` mode. */
  lemma MaskAppliedAfterPhoto(c: Composition, now: nat)
    ensures var s := ScratchTrace(c, now);
      && s[0] == ClearRect(FullCanvas(c))
      && s[1].DrawImage? && s[1].picture == Fetched(CacheBusted(c.overlayImageUrl, now)) && s[1].dest == c.overlayTransform
      && s[2].DrawImage? && s[2].picture == Fetched(CacheBusted(MaskFor(c.shape), now))
      && (forall i :: 0 <= i < |s| && s[i].DrawImage? ==> (s[i].paint.composite == DestinationIn <==> i == 2))
  {
  }

  /** Every image drawn is the requested source with the cache-buster appended. */
  lemma ImagesFetchedFromTheirSources(c: Composition, now: nat)
    ensures ExpectedTrace(c, now)[0].picture.url[..|c.baseImageUrl|] == c.baseImageUrl
    ensures ScratchTrace(c, now)[1].picture.url[..|c.overlayImageUrl|] == c.overlayImageUrl
    ensures ScratchTrace(c, now)[2].picture.url[..|MaskFor(c.shape)|] == MaskFor(c.shape)
  {
  }

  /** The outcome the compositor promises: the full image, or the first error met, and never a partial image. */
  function ExpectedOutcome(c: Composition, b: Browser): (r: Result<DataUrl, CompositeError>)
    ensures r.Success? <==> AssetsLoad(c, b) && b.mainContext && b.scratchContext
    ensures r.Success? ==> r.value == Composited(c.width, c.height, ExpectedTrace(c, b.now))
    ensures !AssetsLoad(c, b) ==> r == Failure(AssetLoadError)
    ensures AssetsLoad(c, b) && !b.mainContext ==> r == Failure(ContextUnavailable("Could not get canvas context"))
    ensures AssetsLoad(c, b) && b.mainContext && !b.scratchContext ==>
              r == Failure(ContextUnavailable("Could not get overlay canvas context"))
  {
    if !AssetsLoad(c, b) then Failure(AssetLoadError)
    else if !b.mainContext then Failure(ContextUnavailable("Could not get canvas context"))
    else if !b.scratchContext then Failure(ContextUnavailable("Could not get overlay canvas context"))
    else Success(Composited(c.width, c.height, ExpectedTrace(c, b.now)))
  }

  /** Steps 2 and 3 on a granted scratch surface: clear, draw the photo, cut it with the mask. */
  method MaskPhoto(c: Composition, overlayImg: Picture, maskImg: Picture) returns (scratch: Surface)
    ensures fresh(scratch)
    ensures scratch.ops == [ ClearRect(FullCanvas(c)),
                             DrawImage(overlayImg, c.overlayTransform, DefaultPaint),
                             DrawImage(maskImg, FullCanvas(c), DefaultPaint.(composite := DestinationIn)) ]
    ensures scratch.paint == DefaultPaint
  {
    scratch := new Surface(c.width, c.height);
    scratch.ClearArea(scratch.Full());
    scratch.Save();
    scratch.Draw(overlayImg, c.overlayTransform);
    scratch.Restore();
    scratch.SetComposite(DestinationIn);
    scratch.Draw(maskImg, scratch.Full());
    scratch.SetComposite(SourceOver);
  }

  /** Step 5: the upper-cased caption at its anchor, in the caption paint, leaving the paint as it was. */
  method DrawCaption(canvas: Surface, c: Composition)
    requires canvas.paint == DefaultPaint
    modifies canvas
    ensures canvas.ops == old(canvas.ops) + [FillText(ToUpper(c.text), TextAnchor(c.width, c.height, c.textPosition), CaptionPaint(c))]
    ensures canvas.paint == DefaultPaint && canvas.saved == old(canvas.saved)
  {
    canvas.Save();
    canvas.SetTextStyle(Font(true, c.textSize, c.textFont), c.textColor, "center", "middle");
    var at := TextAnchor(c.width, c.height, c.textPosition);
    canvas.SetShadow("rgba(0,0,0,0.5)", 4.0);
    canvas.Text(ToUpper(c.text), at);
    canvas.Restore();
  }

  /** Renders the design step by step on two fresh surfaces. */
  method GenerateMaskedCookieImageForShape(p: MaskedCookieImageParams, b: Browser)
    returns (r: Result<DataUrl, CompositeError>)
    ensures r == ExpectedOutcome(WithDefaults(p), b)
  {
    var c := WithDefaults(p);
    var maskImageUrl := MaskFor(c.shape);
    var baseImg := LoadImage(c.baseImageUrl, b);
    var overlayImg := LoadImage(c.overlayImageUrl, b);
    var maskImg := LoadImage(maskImageUrl, b);
    if baseImg.Failure? || overlayImg.Failure? || maskImg.Failure? {
      return Failure(AssetLoadError);
    }

    // 1. the base on the output surface
    var canvas := new Surface(c.width, c.height);
    if !b.mainContext {
      return Failure(ContextUnavailable("Could not get canvas context"));
    }
    canvas.Draw(baseImg.value, canvas.Full());

    // 2 and 3. the photo, masked, on a scratch surface
    if !b.scratchContext {
      return Failure(ContextUnavailable("Could not get overlay canvas context"));
    }
    var overlayCanvas := MaskPhoto(c, overlayImg.value, maskImg.value);

    // 4. the masked photo onto the output
    canvas.Draw(Snapshot(overlayCanvas.ops), FullCanvas(c));
    assert canvas.ops == ExpectedTrace(c, b.now)[..2];

    // 5. the caption, if any
    if c.text != [] {
      DrawCaption(canvas, c);
    }
    assert canvas.ops == ExpectedTrace(c, b.now);
    assert AssetsLoad(c, b);
    var url := canvas.Encode();
    r := Success(url);
  }
}

=== FILE: customizer.dfy ===
/**
 * The cookie editor component: its state, and the handlers that pointer events, buttons and
 * inputs call. Each handler changes only the state fields its frame names.
 */
module Customizer {
  import opened Wrappers
  import opened Geometry
  import opened Strings
  import opened Transform
  import opened Layout
  import opened Pricing
  import opened Shapes
  import opened Drawing
  import opened Compositor
  import opened Capture

  /** The image size every upload starts from, in percent of the preview. */
  const DefaultImageSize: Dimensions := Dimensions(85.0, 85.0)
  /** Viewports narrower than this many pixels use the mobile layout. */
  const MobileBreakpoint: int := 768
  const DemoImage: string := "/assets/cover-prot.jpg"
  /** The side of the exported image, in pixels. */
  const ExportSide: nat := 600
  const CheckoutAlert: string := "Error generating preview image. Please try again."
  /** The DOM capture settings checkout uses: a pink background, cross-origin loading, 2x density. */
  const FallbackOptions: CaptureOptions := CaptureOptions(Some(Some("#f8bbd9")), Some(true), Some(2.0))

  /** What a checkout ends in: a download of the design, or an alert. */
  datatype CheckoutOutcome = Downloaded(image: DataUrl, filename: string) | Alerted(message: string)

  /** The download name `cookie-design-<shape>-<timestamp>.png`. */
  function DesignFilename(shape: string, now: nat): (name: string)
    ensures |name| == 19 + |shape| + |NatToDecimal(now)|
    ensures name[..14] == "cookie-design-"
    ensures name[14..14 + |shape|] == shape && name[14 + |shape|] == '-'
    ensures name[|name| - 4..] == ".png"
    ensures name[15 + |shape|..|name| - 4] == NatToDecimal(now)
  {
    "cookie-design-" + shape + "-" + NatToDecimal(now) + ".png"
  }

  /** Two downloads of the same shape at different times never share a name. */
  lemma FilenameIdentifiesTime(shape: string, m: nat, n: nat)
    requires DesignFilename(shape, m) == DesignFilename(shape, n)
    ensures m == n
  {
    var a, b := DesignFilename(shape, m), DesignFilename(shape, n);
    assert a[15 + |shape|..|a| - 4] == b[15 + |shape|..|b| - 4];
    NatToDecimalInjective(m, n);
  }

  /** The preview the fallback rasterises: the mobile one on a mobile viewport, else the desktop one. */
  function ActivePreview(isMobile: bool, mobilePreview: array?<string>, desktopPreview: array?<string>): (preview: array?<string>)
    ensures isMobile ==> preview == mobilePreview
    ensures !isMobile ==> preview == desktopPreview
  {
    if isMobile then mobilePreview else desktopPreview
  }

  /**
   * What the fallback yields for a preview ref: nothing for an empty ref or a failed
   * rasterisation, and otherwise the PNG of that preview with its controls hidden.
   */
  function FallbackImage(preview: array?<string>, rasterise: Rasteriser): (img: Option<DataUrl>)
    ensures preview == null ==> img == None
    ensures preview != null ==>
              (img.Some? <==> rasterise(preview, HiddenAll(preview.Length), ConfigFor(FallbackOptions)).Success?)
    ensures img.Some? ==> preview != null
    ensures img.Some? && preview != null ==>
              img.value == Captured(rasterise(preview, HiddenAll(preview.Length), ConfigFor(FallbackOptions)).value)
  {
    if preview == null then None
    else match CaptureOutcome(preview, FallbackOptions, rasterise)
      case Success(u) => Some(u)
      case Failure(_) => None
  }

  /** The end of a checkout: download the image under the design's name, or alert. */
  function Finish(shape: string, image: Option<DataUrl>, now: nat): (outcome: CheckoutOutcome)
    ensures outcome.Downloaded? <==> image.Some?
    ensures image.Some? ==> outcome.image == image.value && outcome.filename == DesignFilename(shape, now)
    ensures image.None? ==> outcome.message == CheckoutAlert
  {
    match image
    case Some(u) => Downloaded(u, DesignFilename(shape, now))
    case None => Alerted(CheckoutAlert)
  }

  /** The compositor's image, if it produced one. */
  function ComposedImage(p: MaskedCookieImageParams, b: Browser): (img: Option<DataUrl>)
    ensures img.Some? <==> ExpectedOutcome(WithDefaults(p), b).Success?
    ensures img.Some? ==> img.value == ExpectedOutcome(WithDefaults(p), b).value
  {
    match ExpectedOutcome(WithDefaults(p), b)
    case Success(u) => Some(u)
    case Failure(_) => None
  }

  /** Runs the compositor and keeps its image, dropping the error it may throw. */
  method Compose(p: MaskedCookieImageParams, b: Browser) returns (img: Option<DataUrl>)
    ensures img == ComposedImage(p, b)
  {
    var r := GenerateMaskedCookieImageForShape(p, b);
    img := if r.Success? then Some(r.value) else None;
  }

  /** What a checkout reads of the editor: the design as it stands when the button is pressed. */
  datatype Design = Design(
    selectedShape: string,
    uploadedImage: Option<string>,
    customText: string,
    selectedFont: string,
    fontColor: string,
    imageScale: real,
    imagePosition: Vec2,
    textPosition: Vec2,
    imageSize: Dimensions,
    imageConfirmedOnMobile: bool,
    isMobile: bool)

  /** Whether an image is loaded: its source is present and non-empty, as JavaScript string truthiness has it. */
  predicate HasUpload(upload: Option<string>)
    ensures upload == None ==> !HasUpload(upload)
    ensures upload == Some([]) ==> !HasUpload(upload)
    ensures upload.Some? && upload.value != [] ==> HasUpload(upload)
  {
    upload.Some? && upload.value != []
  }

  /** Checkout renders through the compositor only with a loaded image that is confirmed, or on desktop. */
  predicate UsesComposite(d: Design)
    ensures UsesComposite(d) ==> d.uploadedImage.Some? && d.uploadedImage.value != []
    ensures !d.isMobile ==> (UsesComposite(d) <==> HasUpload(d.uploadedImage))
    ensures d.isMobile ==> (UsesComposite(d) <==> HasUpload(d.uploadedImage) && d.imageConfirmedOnMobile)
  {
    HasUpload(d.uploadedImage) && (d.imageConfirmedOnMobile || !d.isMobile)
  }

  /** The compositor call of a checkout, for the shape whose prototype is `prototypeImage`. */
  function CheckoutParams(d: Design, prototypeImage: string): MaskedCookieImageParams
    requires d.uploadedImage.Some?
  {
    MaskedCookieImageParams(
      prototypeImage, d.uploadedImage.value, d.selectedShape,
      OverlayRect(d.imageSize, d.imageScale, d.imagePosition),
      Some(ExportSide), Some(ExportSide), Some(d.customText), Some(d.fontColor),
      Some(if d.selectedFont != [] then d.selectedFont else "sans-serif"),
      Some(d.textPosition), Some(32.0))
  }

  /**
   * The image a checkout renders: the compositor's when an image is ready and the shape is
   * known, the capture of the active preview when the compositor fails or no image is ready,
   * and none when the shape is unknown.
   */
  function RenderedImage(d: Design, b: Browser, mobilePreview: array?<string>, desktopPreview: array?<string>,
                         rasterise: Rasteriser): Option<DataUrl>
  {
    var fallback := FallbackImage(ActivePreview(d.isMobile, mobilePreview, desktopPreview), rasterise);
    if !UsesComposite(d) then fallback
    else match FindShape(CookieShapes, d.selectedShape)
      case None => None
      case Some(shape) =>
        match ComposedImage(CheckoutParams(d, shape.prototypeImage), b)
        case Some(u) => Some(u)
        case None => fallback
  }

  class CookieCustomizer {
    var selectedShape: string
    var uploadedImage: Option<string>
    var customText: string
    var selectedFont: string
    var fontColor: string
    var quantity: QuantityOption
    var customQuantity: int
    var showCustomQuantity: bool
    var imageScale: real
    var imagePosition: Vec2
    var textPosition: Vec2
    var showImageControls: bool
    var showTextControls: bool
    var imageSize: Dimensions
    var dragState: DragState
    var showAdjustmentModal: bool
    var imageConfirmedOnMobile: bool
    var isMobile: bool
    var isGeneratingImage: bool

    /** The layer transforms a pointer move may change. */
    function CurrentLayers(): Layers
      reads this
    {
      Layers(imagePosition, textPosition, imageScale)
    }

    /**
     * What every handler keeps: never dragging and resizing at once, positions and scale
     * within their bounds, at most one layer selected, and the image at its upload size.
     */
    predicate Valid()
      reads this
    {
      && !(dragState.isDragging && dragState.isResizing)
      && InBounds(CurrentLayers())
      && !(showImageControls && showTextControls)
      && imageSize == DefaultImageSize
    }

    constructor ()
      ensures Valid()
      ensures selectedShape == "circle" && uploadedImage == None && customText == []
      ensures selectedFont == [] && fontColor == "#000000"
      ensures quantity == Q48 && customQuantity == 100 && !showCustomQuantity
      ensures CurrentLayers() == Layers(Origin, Origin, 1.0) && imageSize == DefaultImageSize
      ensures !showImageControls && !showTextControls && dragState == Idle
      ensures !showAdjustmentModal && !imageConfirmedOnMobile && !isMobile && !isGeneratingImage
    {
      selectedShape := "circle";
      uploadedImage := None;
      customText := [];
      selectedFont := [];
      fontColor := "#000000";
      quantity := Q48;
      customQuantity := 100;
      showCustomQuantity := false;
      imageScale := 1.0;
      imagePosition := Origin;
      textPosition := Origin;
      showImageControls := false;
      showTextControls := false;
      imageSize := DefaultImageSize;
      dragState := Idle;
      showAdjustmentModal := false;
      imageConfirmedOnMobile := false;
      isMobile := false;
      isGeneratingImage := false;
    }

    /** The viewport check run on mount and on every window resize. */
    method DetectViewport(innerWidth: int)
      modifies this`isMobile
      ensures isMobile == (innerWidth < MobileBreakpoint)
    {
      isMobile := innerWidth < MobileBreakpoint;
    }

    /** Pointer-down on the image: start a drag from the current position and select the image. */
    method ImageDragStart(pointer: Vec2)
      requires Valid()
      modifies this`dragState, this`showImageControls, this`showTextControls
      ensures Valid()
      ensures dragState == DragState(true, false, pointer.x, pointer.y, imageScale, imagePosition, None, ImageLayer)
      ensures showImageControls && !showTextControls
    {
      dragState := DragState(true, false, pointer.x, pointer.y, imageScale, imagePosition, None, ImageLayer);
      showImageControls := true;
      showTextControls := false;
    }

    /** Pointer-down on the caption: start a drag from the caption's position and select the caption. */
    method TextDragStart(pointer: Vec2)
      requires Valid()
      modifies this`dragState, this`showImageControls, this`showTextControls
      ensures Valid()
      ensures dragState == DragState(true, false, pointer.x, pointer.y, 1.0, textPosition, None, TextLayer)
      ensures showTextControls && !showImageControls
    {
      dragState := DragState(true, false, pointer.x, pointer.y, 1.0, textPosition, None, TextLayer);
      showTextControls := true;
      showImageControls := false;
    }

    /** Pointer-down on a corner handle: start resizing the image; the selection is left as it is. */
    method ResizeStart(pointer: Vec2, handle: string)
      requires Valid()
      modifies this`dragState
      ensures Valid()
      ensures dragState == DragState(false, true, pointer.x, pointer.y, imageScale, imagePosition, Some(handle), ImageLayer)
    {
      dragState := DragState(false, true, pointer.x, pointer.y, imageScale, imagePosition, Some(handle), ImageLayer);
    }

    /**
     * Pointer-move: a drag moves the dragged layer, a resize rescales the image, both measured
     * from the snapshot; the snapshot itself is not touched.
     */
    method MouseMove(pointer: Vec2)
      requires Valid()
      modifies this`imagePosition, this`textPosition, this`imageScale
      ensures Valid()
      ensures CurrentLayers() == AfterMove(dragState, old(CurrentLayers()), pointer)
    {
      if !dragState.isDragging && !dragState.isResizing {
        return;
      }
      var delta := Vec2(pointer.x - dragState.startX, pointer.y - dragState.startY);
      if dragState.isDragging {
        if dragState.dragMode == ImageLayer {
          imagePosition := DraggedPosition(dragState.startPosition, delta, ImageMaxOffset);
        } else if dragState.dragMode == TextLayer {
          textPosition := DraggedPosition(dragState.startPosition, delta, TextMaxOffset);
        }
      } else if dragState.isResizing && dragState.dragMode == ImageLayer {
        imageScale := ResizedScale(dragState.startScale, dragState.resizeHandle, delta);
      }
    }

    /** Pointer-up: back to the idle record; the transforms keep their last values. */
    method MouseUp()
      requires Valid()
      modifies this`dragState
      ensures Valid()
      ensures dragState == Idle
    {
      dragState := Idle;
    }

    /**
     * A click on the cookie at `click` (percent of the container): ignored during a gesture;
     * otherwise it selects the caption when it hits the non-empty caption's box, and the image
     * in every other case.
     */
    method ContainerClick(click: Vec2)
      requires Valid()
      modifies this`showImageControls, this`showTextControls
      ensures Valid()
      ensures InGesture(dragState) ==>
                showImageControls == old(showImageControls) && showTextControls == old(showTextControls)
      ensures !InGesture(dragState) ==>
                showTextControls == SelectsText(textPosition, customText, click) && showImageControls == !showTextControls
    {
      if dragState.isDragging || dragState.isResizing {
        return;
      }
      if SelectsText(textPosition, customText, click) {
        showTextControls := true;
        showImageControls := false;
      } else {
        showImageControls := true;
        showTextControls := false;
      }
    }

    /**
     * Shows a newly loaded image at its default transform: in the adjustment modal on mobile,
     * with the image selected on desktop.
     */
    method PlaceUploadedImage(src: string)
      requires Valid()
      modifies this`uploadedImage, this`showAdjustmentModal, this`imageConfirmedOnMobile,
               this`showImageControls, this`showTextControls, this`imageScale, this`imagePosition, this`imageSize
      ensures Valid()
      ensures uploadedImage == Some(src)
      ensures imageScale == 1.0 && imagePosition == Origin && imageSize == DefaultImageSize
      ensures isMobile ==> showAdjustmentModal && !imageConfirmedOnMobile
      ensures isMobile ==> showImageControls == old(showImageControls) && showTextControls == old(showTextControls)
      ensures !isMobile ==> showImageControls && !showTextControls
      ensures !isMobile ==> showAdjustmentModal == old(showAdjustmentModal) && imageConfirmedOnMobile == old(imageConfirmedOnMobile)
    {
      uploadedImage := Some(src);
      if isMobile {
        showAdjustmentModal := true;
        imageConfirmedOnMobile := false;
      } else {
        showImageControls := true;
        showTextControls := false;
      }
      imageScale := 1.0;
      imagePosition := Origin;
      imageSize := DefaultImageSize;
    }

    /** The file input: `file` is the chosen file read as a data URL, or `None` when nothing was chosen. */
    method ImageUpload(file: Option<string>)
      requires Valid()
      modifies this`uploadedImage, this`showAdjustmentModal, this`imageConfirmedOnMobile,
               this`showImageControls, this`showTextControls, this`imageScale, this`imagePosition, this`imageSize
      ensures Valid()
      ensures file == None ==> unchanged(this)
      ensures file.Some? ==> uploadedImage == Some(file.value)
      ensures file.Some? ==> imageScale == 1.0 && imagePosition == Origin && imageSize == DefaultImageSize
      ensures file.Some? && isMobile ==> showAdjustmentModal && !imageConfirmedOnMobile
      ensures file.Some? && isMobile ==> showImageControls == old(showImageControls) && showTextControls == old(showTextControls)
      ensures file.Some? && !isMobile ==> showImageControls && !showTextControls
      ensures file.Some? && !isMobile ==>
                showAdjustmentModal == old(showAdjustmentModal) && imageConfirmedOnMobile == old(imageConfirmedOnMobile)
    {
      if file.Some? {
        PlaceUploadedImage(file.value);
      }
    }

    /** The upload button: loads the demo image. */
    method UploadClick()
      requires Valid()
      modifies this`uploadedImage, this`showAdjustmentModal, this`imageConfirmedOnMobile,
               this`showImageControls, this`showTextControls, this`imageScale, this`imagePosition, this`imageSize
      ensures Valid()
      ensures uploadedImage == Some(DemoImage)
      ensures imageScale == 1.0 && imagePosition == Origin && imageSize == DefaultImageSize
      ensures isMobile ==> showAdjustmentModal && !imageConfirmedOnMobile
      ensures isMobile ==> showImageControls == old(showImageControls) && showTextControls == old(showTextControls)
      ensures !isMobile ==> showImageControls && !showTextControls
      ensures !isMobile ==> showAdjustmentModal == old(showAdjustmentModal) && imageConfirmedOnMobile == old(imageConfirmedOnMobile)
    {
      PlaceUploadedImage(DemoImage);
    }

    /** "Looks good" in the adjustment modal: confirms the image on mobile, selects it on desktop. */
    method LooksGood()
      requires Valid()
      modifies this`showAdjustmentModal, this`imageConfirmedOnMobile, this`showImageControls, this`showTextControls
      ensures Valid()
      ensures !showAdjustmentModal
      ensures isMobile ==> imageConfirmedOnMobile && showImageControls == old(showImageControls) && showTextControls == old(showTextControls)
      ensures !isMobile ==> showImageControls && !showTextControls && imageConfirmedOnMobile == old(imageConfirmedOnMobile)
    {
      showAdjustmentModal := false;
      if isMobile {
        imageConfirmedOnMobile := true;
      } else {
        showImageControls := true;
        showTextControls := false;
      }
    }

    /** The mobile edit button reopens the modal when there is an image. */
    method EditClick()
      modifies this`showAdjustmentModal
      ensures showAdjustmentModal == (old(showAdjustmentModal) || HasUpload(uploadedImage))
    {
      if HasUpload(uploadedImage) {
        showAdjustmentModal := true;
      }
    }

    method SelectShape(id: string)
      modifies this`selectedShape
      ensures selectedShape == id
    {
      selectedShape := id;
    }

    method SetCustomText(text: string)
      modifies this`customText
      ensures customText == text
    {
      customText := text;
    }

    /** A quantity button: "MORE" also opens the typed-in amount. */
    method QuantitySelect(q: QuantityOption)
      modifies this`quantity, this`showCustomQuantity
      ensures quantity == q && showCustomQuantity == (q == More)
    {
      showCustomQuantity := q == More;
      quantity := q;
    }

    /**
     * The typed-in amount (already parsed; unparsable text is 0): always stored, and it selects
     * "MORE" once it reaches 12. A smaller amount typed while "MORE" is selected is used as it is.
     */
    method CustomQuantityInput(value: int)
      modifies this`customQuantity, this`quantity, this`showCustomQuantity
      ensures customQuantity == value
      ensures value >= MinCustomQuantity ==> quantity == More && showCustomQuantity
      ensures value < MinCustomQuantity ==> quantity == old(quantity) && showCustomQuantity == old(showCustomQuantity)
      ensures old(quantity) == More ==> TotalCents(quantity, customQuantity) == value * UnitCents
    {
      customQuantity := value;
      if value >= MinCustomQuantity {
        quantity := More;
        showCustomQuantity := true;
      }
    }

    /** The design as it stands: everything a checkout reads of the editor. */
    function CurrentDesign(): Design
      reads this`selectedShape, this`uploadedImage, this`customText, this`selectedFont, this`fontColor,
            this`imageScale, this`imagePosition, this`textPosition, this`imageSize,
            this`imageConfirmedOnMobile, this`isMobile
    {
      Design(selectedShape, uploadedImage, customText, selectedFont, fontColor, imageScale, imagePosition,
             textPosition, imageSize, imageConfirmedOnMobile, isMobile)
    }

    /** The fallback step of a checkout: rasterise the active preview, or fail when its ref is empty. */
    method CapturePreview(mobilePreview: array?<string>, desktopPreview: array?<string>, rasterise: Rasteriser)
      returns (image: Option<DataUrl>)
      modifies mobilePreview, desktopPreview
      ensures image == FallbackImage(ActivePreview(isMobile, mobilePreview, desktopPreview), rasterise)
      ensures mobilePreview != null ==> mobilePreview[..] == old(mobilePreview[..])
      ensures desktopPreview != null ==> desktopPreview[..] == old(desktopPreview[..])
    {
      var preview := ActivePreview(isMobile, mobilePreview, desktopPreview);
      if preview == null {
        return None;
      }
      var captured := GenerateCookiePreviewImage(preview, FallbackOptions, rasterise);
      image := if captured.Success? then Some(captured.value) else None;
    }

    /**
     * The rendering step of a checkout, run on the live previews; their controls are shown again
     * afterwards.
     */
    method RenderDesign(b: Browser, mobilePreview: array?<string>, desktopPreview: array?<string>, rasterise: Rasteriser)
      returns (image: Option<DataUrl>)
      modifies mobilePreview, desktopPreview
      ensures mobilePreview != null ==> mobilePreview[..] == old(mobilePreview[..])
      ensures desktopPreview != null ==> desktopPreview[..] == old(desktopPreview[..])
      ensures image == RenderedImage(CurrentDesign(), b, mobilePreview, desktopPreview, rasterise)
    {
      var design := CurrentDesign();
      if UsesComposite(design) {
        var cookieShape := FindShape(CookieShapes, design.selectedShape);
        if cookieShape.Some? {
          image := Compose(CheckoutParams(design, cookieShape.value.prototypeImage), b);
          if image.None? {
            image := CapturePreview(mobilePreview, desktopPreview, rasterise);
          }
        } else {
          image := None;
        }
      } else {
        image := CapturePreview(mobilePreview, desktopPreview, rasterise);
      }
    }

    /**
     * Checkout: renders the design, then downloads it under the design's name, or alerts when no
     * image could be rendered. The busy flag is set for the duration and cleared on every path.
     */
    method Checkout(b: Browser, mobilePreview: array?<string>, desktopPreview: array?<string>, rasterise: Rasteriser)
      returns (outcome: CheckoutOutcome)
      modifies this`isGeneratingImage, mobilePreview, desktopPreview
      ensures !isGeneratingImage
      ensures mobilePreview != null ==> mobilePreview[..] == old(mobilePreview[..])
      ensures desktopPreview != null ==> desktopPreview[..] == old(desktopPreview[..])
      ensures outcome == Finish(selectedShape, RenderedImage(CurrentDesign(), b, mobilePreview, desktopPreview, rasterise), b.now)
    {
      isGeneratingImage := true;
      var image := RenderDesign(b, mobilePreview, desktopPreview, rasterise);
      outcome := Finish(selectedShape, image, b.now);
      isGeneratingImage := false;
    }
  }

  /**
   * A press on the image, any number of moves and a release: the editor ends idle with every
   * bound kept and the image selected; the image sits where the last move put it, or where it
   * was when no move came; the caption, the scale and everything outside the gesture are untouched.
   */
  method DragSession(editor: CookieCustomizer, down: Vec2, moves: seq<Vec2>)
    requires editor.Valid()
    modifies editor`dragState, editor`imagePosition, editor`textPosition, editor`imageScale,
             editor`showImageControls, editor`showTextControls
    ensures editor.Valid() && editor.dragState == Idle
    ensures editor.showImageControls && !editor.showTextControls
    ensures moves == [] ==> editor.imagePosition == old(editor.imagePosition)
    ensures moves != [] ==>
              editor.imagePosition == DraggedPosition(old(editor.imagePosition),
                Vec2(moves[|moves| - 1].x - down.x, moves[|moves| - 1].y - down.y), ImageMaxOffset)
    ensures editor.textPosition == old(editor.textPosition) && editor.imageScale == old(editor.imageScale)
  {
    editor.ImageDragStart(down);
    ghost var d := editor.dragState;
    ghost var start := editor.CurrentLayers();
    var i := 0;
    while i < |moves|
      invariant 0 <= i <= |moves|
      invariant editor.Valid() && editor.dragState == d
      invariant editor.showImageControls && !editor.showTextControls
      invariant editor.CurrentLayers() == ApplyMoves(d, start, moves[..i])
    {
      editor.MouseMove(moves[i]);
      ApplyMovesSnoc(d, start, moves[..i], moves[i]);
      assert moves[..i + 1] == moves[..i] + [moves[i]];
      i := i + 1;
    }
    if moves != [] {
      assert moves[..|moves|] == moves;
      PathIndependent(d, start, moves);
    }
    editor.MouseUp();
  }

  /** One more move at the end of a stream is one more application of AfterMove. */
  lemma {:induction false} ApplyMovesSnoc(d: DragState, l: Layers, pointers: seq<Vec2>, p: Vec2)
    ensures ApplyMoves(d, l, pointers + [p]) == AfterMove(d, ApplyMoves(d, l, pointers), p)
    decreases |pointers|
  {
    if pointers != [] {
      assert (pointers + [p])[1..] == pointers[1..] + [p];
      ApplyMovesSnoc(d, AfterMove(d, l, pointers[0]), pointers[1..], p);
    }
  }

  /**
   * The rendering decision of a checkout, case by case: the capture of the active preview when no
   * image is ready; nothing for an unknown shape; otherwise the compositor's image, or the capture
   * when the compositor fails.
   */
  lemma RenderedImageCases(d: Design, b: Browser, mobilePreview: array?<string>,
                           desktopPreview: array?<string>, rasterise: Rasteriser)
    ensures var image := RenderedImage(d, b, mobilePreview, desktopPreview, rasterise);
      var fallback := FallbackImage(ActivePreview(d.isMobile, mobilePreview, desktopPreview), rasterise);
      var shape := FindShape(CookieShapes, d.selectedShape);
      && (!UsesComposite(d) ==> image == fallback)
      && (UsesComposite(d) && shape.None? ==> image == None)
      && (UsesComposite(d) && shape.Some? ==>
            var composed := ComposedImage(CheckoutParams(d, shape.value.prototypeImage), b);
            image == if composed.Some? then composed else fallback)
  {
  }

  /**
   * The compositor call of a checkout: the shape's prototype as the base, the uploaded image at
   * the export rectangle, a 600 x 600 canvas, and the caption in the chosen colour and font
   * (sans-serif when none is chosen) at size 32.
   */
  lemma CheckoutCallArguments(d: Design, prototypeImage: string)
    requires d.uploadedImage.Some?
    ensures var p := CheckoutParams(d, prototypeImage);
      && p.baseImageUrl == prototypeImage && p.overlayImageUrl == d.uploadedImage.value
      && p.shape == d.selectedShape
      && p.overlayTransform == OverlayRect(d.imageSize, d.imageScale, d.imagePosition)
      && p.width == Some(ExportSide) && p.height == Some(ExportSide) && p.textSize == Some(32.0)
      && p.text == Some(d.customText) && p.textColor == Some(d.fontColor)
      && p.textPosition == Some(d.textPosition)
      && p.textFont == Some(if d.selectedFont != [] then d.selectedFont else "sans-serif")
  {
  }

  /**
   * What checkout exports matches what the editor shows: the caption is centred at the same
   * percentage of the 600 x 600 image as its box in the preview, and the photo covers the same
   * share of it as the image box does.
   */
  lemma CheckoutMatchesPreview(d: Design, prototypeImage: string)
    requires d.uploadedImage.Some?
    ensures var c := WithDefaults(CheckoutParams(d, prototypeImage));
      && c.width == ExportSide && c.height == ExportSide
      && TextAnchor(c.width, c.height, c.textPosition).x / 600.0 * 100.0
           == Center(TextBox(d.textPosition, Utf16Length(d.customText))).x
      && TextAnchor(c.width, c.height, c.textPosition).y / 600.0 * 100.0
           == Center(TextBox(d.textPosition, Utf16Length(d.customText))).y
      && c.overlayTransform.width / 600.0 * 100.0
           == ImageTransformBox(d.imageSize, d.imageScale, d.imagePosition).width
      && c.overlayTransform.height / 600.0 * 100.0
           == ImageTransformBox(d.imageSize, d.imageScale, d.imagePosition).height
  {
    var c := WithDefaults(CheckoutParams(d, prototypeImage));
    TextAnchorMatchesPreview(c.width, c.height, c.textPosition, Utf16Length(d.customText));
    ExportSizeMatchesPreview(d.imageSize, d.imageScale, d.imagePosition);
  }
}

=== FILE: drawing.dfy ===
/**
 * The part of a 2D canvas context the compositor uses. A surface does not hold pixels: it
 * records, in order, every drawing operation together with the paint state in force, which
 * is what decides the pixels.
 */
module Drawing {
  import opened Geometry

  /** `globalCompositeOperation`: plain painting, or keeping the destination only where the source is opaque. */
  datatype CompositeOp = SourceOver | DestinationIn

  datatype Font = Font(bold: bool, sizePx: real, family: string)

  /** The context state that `save` and `restore` keep, with the canvas defaults. */
  datatype Paint = Paint(
    composite: CompositeOp,
    font: Font,
    fillStyle: string,
    textAlign: string,
    textBaseline: string,
    shadowColor: string,
    shadowBlur: real)

  const DefaultPaint: Paint :=
    Paint(SourceOver, Font(false, 10.0, "sans-serif"), "#000000", "start", "alphabetic", "rgba(0,0,0,0)", 0.0)

  /** What can be drawn: an image fetched from a URL, or the content of another surface. */
  datatype Picture = Fetched(url: string) | Snapshot(ops: seq<DrawOp>)

  /** One recorded drawing operation. */
  datatype DrawOp =
    | ClearRect(area: Rect)
    | DrawImage(picture: Picture, dest: Rect, paint: Paint)
    | FillText(text: string, at: Vec2, paint: Paint)

  /** The encoded image a surface or a DOM capture yields (`toDataURL`). */
  datatype DataUrl =
    | Composited(width: nat, height: nat, ops: seq<DrawOp>)
    | Captured(png: string)

  class Surface {
    const width: nat
    const height: nat
    var ops: seq<DrawOp>
    var paint: Paint
    var saved: seq<Paint>

    constructor (w: nat, h: nat)
      ensures width == w && height == h
      ensures ops == [] && paint == DefaultPaint && saved == []
    {
      width, height := w, h;
      ops, paint, saved := [], DefaultPaint, [];
    }

    function Full(): (r: Rect)
      reads this
      ensures r.left == 0.0 && r.top == 0.0
    {
      Rect(0.0, 0.0, width as real, height as real)
    }

    method Save()
      modifies this
      ensures saved == old(saved) + [old(paint)]
      ensures paint == old(paint) && ops == old(ops)
    {
      saved := saved + [paint];
    }

    /** Pops the paint saved last; with nothing saved, it does nothing. */
    method Restore()
      modifies this
      ensures old(saved) == [] ==> saved == [] && paint == old(paint)
      ensures old(saved) != [] ==> saved == old(saved)[..|old(saved)| - 1] && paint == old(saved)[|old(saved)| - 1]
      ensures ops == old(ops)
    {
      if saved != [] {
        paint := saved[|saved| - 1];
        saved := saved[..|saved| - 1];
      }
    }

    method SetComposite(c: CompositeOp)
      modifies this`paint
      ensures paint == old(paint).(composite := c)
    {
      paint := paint.(composite := c);
    }

    /** Sets font, colour, alignment and shadow for the next `FillText`. */
    method SetTextStyle(font: Font, fillStyle: string, textAlign: string, textBaseline: string)
      modifies this`paint
      ensures paint == old(paint).(font := font, fillStyle := fillStyle, textAlign := textAlign, textBaseline := textBaseline)
    {
      paint := paint.(font := font, fillStyle := fillStyle, textAlign := textAlign, textBaseline := textBaseline);
    }

    method SetShadow(color: string, blur: real)
      modifies this`paint
      ensures paint == old(paint).(shadowColor := color, shadowBlur := blur)
    {
      paint := paint.(shadowColor := color, shadowBlur := blur);
    }

    method ClearArea(area: Rect)
      modifies this`ops
      ensures ops == old(ops) + [ClearRect(area)]
    {
      ops := ops + [ClearRect(area)];
    }

    method Draw(picture: Picture, dest: Rect)
      modifies this`ops
      ensures ops == old(ops) + [DrawImage(picture, dest, paint)]
    {
      ops := ops + [DrawImage(picture, dest, paint)];
    }

    method Text(text: string, at: Vec2)
      modifies this`ops
      ensures ops == old(ops) + [FillText(text, at, paint)]
    {
      ops := ops + [FillText(text, at, paint)];
    }

    /** `toDataURL('image/png')`: the whole recorded content at the surface's size. */
    method Encode() returns (url: DataUrl)
      ensures url == Composited(width, height, ops)
    {
      url := Composited(width, height, ops);
    }
  }
}

=== FILE: geometry.dfy ===
/** Points and axis-aligned rectangles shared by the editor layout and the compositor. */
module Geometry {

  /** A point or an offset; `x` grows to the right and `y` downwards. */
  datatype Vec2 = Vec2(x: real, y: real)

  const Origin: Vec2 := Vec2(0.0, 0.0)

  /** A rectangle given by its top-left corner and its extent (percent or pixels, per use). */
  datatype Rect = Rect(left: real, top: real, width: real, height: real)

  function Center(r: Rect): (c: Vec2)
  {
    Vec2(r.left + r.width / 2.0, r.top + r.height / 2.0)
  }

  /** Whether `p` lies inside `r`, edges included. */
  predicate Contains(r: Rect, p: Vec2)
  {
    r.left <= p.x <= r.left + r.width && r.top <= p.y <= r.top + r.height
  }
}

=== FILE: layout.dfy ===
/**
 * Layout numbers derived from the editor state: the text selection box (also the click
 * hit-test region), the image selection box in percent of the preview, and the pixel
 * rectangle handed to the compositor at checkout.
 */
module Layout {
  import opened Geometry
  import opened Strings

  /** Percent of the preview per offset unit, used by both selection boxes. */
  const UnitPercent: real := 0.1
  const CharWidth: real := 3.0
  const LineHeight: real := 8.0
  const Padding: real := 2.0
  /** Where the caption sits when its offset is zero, in percent. */
  const TextHome: Vec2 := Vec2(50.0, 75.0)
  /** The side of the square canvas the checkout renders, in pixels. */
  const ExportSize: real := 600.0
  /** Pixels of export per offset unit. */
  const ExportUnit: real := 0.5

  /** Width and height of a box, in percent of the preview. */
  datatype Dimensions = Dimensions(width: real, height: real)

  /** The text box size: 3% per character kept within [30%, 90%], plus 2% padding on each side. */
  function TextDimensions(textLength: nat): (d: Dimensions)
    ensures 34.0 <= d.width <= 94.0 && d.height == 12.0
    ensures textLength <= 10 ==> d.width == 34.0
    ensures 10 <= textLength <= 30 ==> d.width == 3.0 * textLength as real + 4.0
    ensures 30 <= textLength ==> d.width == 94.0
  {
    var baseWidth := if textLength as real * CharWidth < 30.0 then 30.0
                     else if textLength as real * CharWidth > 90.0 then 90.0
                     else textLength as real * CharWidth;
    Dimensions(baseWidth + Padding * 2.0, LineHeight + Padding * 2.0)
  }

  /** Longer captions never get a narrower box. */
  lemma TextWidthMonotone(m: nat, n: nat)
    requires m <= n
    ensures TextDimensions(m).width <= TextDimensions(n).width
  {
  }

  /** The text selection box, in percent, for a caption of `textLength` characters at `offset`. */
  function TextBox(offset: Vec2, textLength: nat): (b: Rect)
    ensures Center(b) == Vec2(TextHome.x + UnitPercent * offset.x, TextHome.y + UnitPercent * offset.y)
    ensures b.width == TextDimensions(textLength).width && b.height == TextDimensions(textLength).height
  {
    var dims := TextDimensions(textLength);
    var left := TextHome.x + offset.x * UnitPercent;
    var top := TextHome.y + offset.y * UnitPercent;
    Rect(left - dims.width / 2.0, top - dims.height / 2.0, dims.width, dims.height)
  }

  /**
   * The click hit-test: a click at `click` (percent of the container) selects the text layer
   * exactly when it falls inside the text box, edges included, and there is some text. The box
   * is sized by the caption's length in UTF-16 code units.
   */
  function SelectsText(offset: Vec2, text: string, click: Vec2): (hit: bool)
    ensures hit <==> text != [] && Contains(TextBox(offset, Utf16Length(text)), click)
  {
    var dims := TextDimensions(Utf16Length(text));
    var textLeft := 50.0 + offset.x * 0.1 - dims.width / 2.0;
    var textRight := textLeft + dims.width;
    var textTop := 75.0 + offset.y * 0.1 - dims.height / 2.0;
    var textBottom := textTop + dims.height;
    var within := textLeft <= click.x <= textRight && textTop <= click.y <= textBottom;
    within && text != []
  }

  /** The centre of the text box is always inside it, so clicking it selects non-empty text. */
  lemma ClickAtTextCentreSelects(offset: Vec2, text: string)
    requires text != []
    ensures SelectsText(offset, text, Center(TextBox(offset, Utf16Length(text))))
  {
  }

  /** The image selection box, in percent, for an image of `size` percent at `scale` and `offset`. */
  function ImageTransformBox(size: Dimensions, scale: real, offset: Vec2): (b: Rect)
    ensures b.width == size.width * scale && b.height == size.height * scale
    ensures Center(b) == Vec2(50.0 + UnitPercent * offset.x, 50.0 + UnitPercent * offset.y)
  {
    var finalWidth := size.width * scale;
    var finalHeight := size.height * scale;
    var baseLeft := (100.0 - size.width) / 2.0;
    var baseTop := (100.0 - size.height) / 2.0;
    var finalLeft := baseLeft + offset.x * UnitPercent - (finalWidth - size.width) / 2.0;
    var finalTop := baseTop + offset.y * UnitPercent - (finalHeight - size.height) / 2.0;
    Rect(finalLeft, finalTop, finalWidth, finalHeight)
  }

  /** Resizing never moves the image box: its centre is the same at every scale. */
  lemma ImageBoxCentreIgnoresScale(size: Dimensions, s: real, t: real, offset: Vec2)
    ensures Center(ImageTransformBox(size, s, offset)) == Center(ImageTransformBox(size, t, offset))
  {
  }

  /** The pixel rectangle of the user image on the 600 x 600 export canvas. */
  function OverlayRect(size: Dimensions, scale: real, offset: Vec2): (r: Rect)
    ensures r.width == size.width / 100.0 * ExportSize * scale
    ensures r.height == size.height / 100.0 * ExportSize * scale
    ensures Center(r) == Vec2(ExportSize / 2.0 + ExportUnit * offset.x, ExportSize / 2.0 + ExportUnit * offset.y)
  {
    var overlayWidthPx := (size.width / 100.0) * ExportSize * scale;
    var overlayHeightPx := (size.height / 100.0) * ExportSize * scale;
    var centerX := ExportSize / 2.0;
    var centerY := ExportSize / 2.0;
    Rect(centerX + offset.x * 0.5 - overlayWidthPx / 2.0,
         centerY + offset.y * 0.5 - overlayHeightPx / 2.0,
         overlayWidthPx, overlayHeightPx)
  }

  /** The export rectangle covers the same share of the canvas as the image box does of the preview. */
  lemma ExportSizeMatchesPreview(size: Dimensions, scale: real, offset: Vec2)
    ensures OverlayRect(size, scale, offset).width / ExportSize * 100.0
            == ImageTransformBox(size, scale, offset).width
    ensures OverlayRect(size, scale, offset).height / ExportSize * 100.0
            == ImageTransformBox(size, scale, offset).height
  {
    var w := size.width * scale;
    assert (size.width / 100.0) * ExportSize * scale / ExportSize * 100.0 == w;
    var h := size.height * scale;
    assert (size.height / 100.0) * ExportSize * scale / ExportSize * 100.0 == h;
  }

  /**
   * The export places the image centre 0.5 px per unit from the middle of a 600 px canvas,
   * that is 1/12 % per unit, while the preview box moves 0.1 % per unit: the two positions
   * agree exactly when the offset is zero.
   */
  lemma ExportCentreMatchesPreviewIffCentred(size: Dimensions, scale: real, offset: Vec2)
    ensures Center(OverlayRect(size, scale, offset)).x / ExportSize * 100.0
              == Center(ImageTransformBox(size, scale, offset)).x
            <==> offset.x == 0.0
    ensures Center(OverlayRect(size, scale, offset)).x / ExportSize * 100.0 == 50.0 + offset.x / 12.0
  {
  }
}

=== FILE: pricing.dfy ===
/** The order quantity and its price, in cents. */
module Pricing {

  /** The quantity buttons: three fixed batch sizes or "MORE", which uses the typed-in amount. */
  datatype QuantityOption = Q24 | Q48 | Q72 | More

  /** Price of one cookie, in cents ($1.25). */
  const UnitCents: int := 125
  /** The smallest typed-in amount that switches the selection to "MORE". */
  const MinCustomQuantity: int := 12

  /** The number of cookies ordered; the typed-in amount is taken as it is when "MORE" is selected. */
  function CurrentQuantity(q: QuantityOption, customQuantity: int): (n: int)
    ensures q == Q24 ==> n == 24
    ensures q == Q48 ==> n == 48
    ensures q == Q72 ==> n == 72
    ensures q == More ==> n == customQuantity
  {
    match q
    case Q24 => 24
    case Q48 => 48
    case Q72 => 72
    case More => customQuantity
  }

  /** The total, in cents: $1.25 per cookie. */
  function TotalCents(q: QuantityOption, customQuantity: int): (c: int)
    ensures c % UnitCents == 0 && c / UnitCents == CurrentQuantity(q, customQuantity)
  {
    CurrentQuantity(q, customQuantity) * UnitCents
  }

  /** The three batch buttons cost $30, $60 and $90. */
  lemma PresetPrices()
    ensures TotalCents(Q24, 0) == 3000 && TotalCents(Q48, 0) == 6000 && TotalCents(Q72, 0) == 9000
    ensures forall c :: TotalCents(Q48, c) == 6000
  {
  }

  /**
   * More cookies never cost less, whichever buttons the two orders were placed with, and
   * strictly more cookies always cost strictly more.
   */
  lemma PriceMonotone(q1: QuantityOption, a: int, q2: QuantityOption, b: int)
    ensures CurrentQuantity(q1, a) <= CurrentQuantity(q2, b) <==> TotalCents(q1, a) <= TotalCents(q2, b)
    ensures CurrentQuantity(q1, a) < CurrentQuantity(q2, b) <==> TotalCents(q1, a) < TotalCents(q2, b)
  {
  }
}

=== FILE: shapes.dfy ===
/** The three cookie shapes and the image assets each one uses. */
module Shapes {
  import opened Wrappers

  /** A shape entry: the decorative picture and the prototype the compositor draws as the base. */
  datatype CookieShape = CookieShape(id: string, image: string, prototypeImage: string, alt: string)

  /** The shape table, in display order. */
  const CookieShapes: seq<CookieShape> := [
    CookieShape("circle", "/assets/cookie-circle.png", "/assets/cookie-circle-prot.png", "Round cookie"),
    CookieShape("square", "/assets/cookie-square.png", "/assets/cookie-square-prot.png", "Square cookie"),
    CookieShape("rect", "/assets/cookie-rect.png", "/assets/cookie-rect-prot.png", "Rect cookie")
  ]

  /** `Array.prototype.find` by id: the first entry with that id, if any. */
  function FindShape(shapes: seq<CookieShape>, id: string): (r: Option<CookieShape>)
    ensures r.Some? ==> r.value in shapes && r.value.id == id
    ensures r.Some? <==> exists i :: 0 <= i < |shapes| && shapes[i].id == id
    ensures r.Some? ==> exists i :: 0 <= i < |shapes| && shapes[i] == r.value &&
                                    forall j :: 0 <= j < i ==> shapes[j].id != id
  {
    if shapes == [] then None
    else if shapes[0].id == id then Some(shapes[0])
    else
      var r := FindShape(shapes[1..], id);
      assert r.Some? ==> exists i :: 1 <= i < |shapes| && shapes[i] == r.value &&
                                     forall j :: 0 <= j < i ==> shapes[j].id != id by {
        if r.Some? {
          var i :| 0 <= i < |shapes[1..]| && shapes[1..][i] == r.value &&
                   forall j :: 0 <= j < i ==> shapes[1..][j].id != id;
          assert shapes[i + 1] == r.value;
        }
      }
      r
  }

  /** The mask for each shape. */
  const ShapeMaskMap: map<string, string> := map[
    "circle" := "/assets/cookie-circle-prot-mask.png",
    "square" := "/assets/cookie-square-prot-mask.png",
    "rect" := "/assets/cookie-rect-prot-mask.png"
  ]

  /** The mask lookup; a shape missing from the map gets the circle mask. */
  function MaskFor(shape: string): (url: string)
    ensures shape in ShapeMaskMap ==> url == ShapeMaskMap[shape]
    ensures shape !in ShapeMaskMap ==> url == ShapeMaskMap["circle"]
  {
    if shape in ShapeMaskMap then ShapeMaskMap[shape] else ShapeMaskMap["circle"]
  }

  /** Every listed shape is found, with the prototype of its own name; an unknown id is not. */
  lemma ShapeTableComplete()
    ensures FindShape(CookieShapes, "circle") == Some(CookieShapes[0])
    ensures FindShape(CookieShapes, "square") == Some(CookieShapes[1])
    ensures FindShape(CookieShapes, "rect") == Some(CookieShapes[2])
    ensures FindShape(CookieShapes, "oval") == None
  {
  }

  /** The three shapes have three different masks, and every other name falls back to the circle's. */
  lemma MasksDistinct(other: string)
    requires other != "circle" && other != "square" && other != "rect"
    ensures MaskFor("circle") != MaskFor("square")
    ensures MaskFor("circle") != MaskFor("rect")
    ensures MaskFor("square") != MaskFor("rect")
    ensures MaskFor(other) == MaskFor("circle")
  {
  }
}

=== FILE: strings.dfy ===
/** The string helpers the editor relies on: upper-casing the caption and printing timestamps. */
module Strings {

  predicate IsLower(c: char)
  {
    'a' <= c <= 'z'
  }

  function UpperChar(c: char): (u: char)
    ensures IsLower(c) ==> u as int == c as int - 32
    ensures !IsLower(c) ==> u == c
    ensures !IsLower(u)
  {
    if IsLower(c) then (c as int - 32) as char else c
  }

  /** `String.prototype.toUpperCase`, restricted to the ASCII letters. */
  function ToUpper(s: string): (r: string)
    ensures |r| == |s|
    ensures forall i :: 0 <= i < |s| ==> r[i] == UpperChar(s[i])
  {
    seq(|s|, i requires 0 <= i < |s| => UpperChar(s[i]))
  }

  /**
   * `String.prototype.length`: the number of UTF-16 code units, where a character beyond
   * U+FFFF is a surrogate pair and counts twice.
   */
  function Utf16Length(s: string): (n: nat)
    ensures |s| <= n <= 2 * |s|
    ensures (forall i :: 0 <= i < |s| ==> s[i] as int < 0x1_0000) ==> n == |s|
    ensures (exists i :: 0 <= i < |s| && s[i] as int >= 0x1_0000) ==> n > |s|
  {
    if s == [] then 0
    else Utf16Length(s[..|s| - 1]) + (if s[|s| - 1] as int < 0x1_0000 then 1 else 2)
  }

  predicate IsDigit(c: char)
  {
    '0' <= c <= '9'
  }

  function DigitChar(d: nat): (c: char)
    requires d < 10
    ensures IsDigit(c) && c as int - '0' as int == d
  {
    ('0' as int + d) as char
  }

  /** The decimal text of a natural number, as a template literal prints it (`${n}`). */
  function NatToDecimal(n: nat): (s: string)
    ensures |s| >= 1
    ensures forall i :: 0 <= i < |s| ==> IsDigit(s[i])
    ensures n >= 10 ==> s[0] != '0'
  {
    if n < 10 then [DigitChar(n)] else NatToDecimal(n / 10) + [DigitChar(n % 10)]
  }

  /** The value of a string of decimal digits: the inverse of NatToDecimal. */
  function ParseDecimal(s: string): (n: nat)
    requires forall i :: 0 <= i < |s| ==> IsDigit(s[i])
  {
    if s == [] then 0
    else
      var d := s[|s| - 1] as int - '0' as int;
      assert IsDigit(s[|s| - 1]);
      ParseDecimal(s[..|s| - 1]) * 10 + d
  }

  /** Printing a number and reading it back gives the number again. */
  lemma {:induction false} DecimalRoundTrip(n: nat)
    ensures ParseDecimal(NatToDecimal(n)) == n
  {
    if n >= 10 {
      var s := NatToDecimal(n);
      assert s[..|s| - 1] == NatToDecimal(n / 10);
      DecimalRoundTrip(n / 10);
    }
  }

  /** Distinct numbers print differently, so a timestamp in a name identifies it. */
  lemma NatToDecimalInjective(m: nat, n: nat)
    requires NatToDecimal(m) == NatToDecimal(n)
    ensures m == n
  {
    DecimalRoundTrip(m);
    DecimalRoundTrip(n);
  }
}

=== FILE: transform.dfy ===
/**
 * The transform model of the cookie editor: how a pointer gesture that started at a
 * recorded snapshot turns into a new image position, text position or image scale.
 */
module Transform {
  import opened Wrappers
  import opened Geometry

  /** Pointer travel maps to offset units at half rate. */
  const Damping: real := 0.5
  const ImageMaxOffset: real := 100.0
  const TextMaxOffset: real := 200.0
  const MinScale: real := 0.3
  const MaxScale: real := 3.0
  /** Scale change per pixel of pointer travel along a corner's diagonal. */
  const ResizeRate: real := 0.002

  function Min(a: real, b: real): real { if a <= b then a else b }
  function Max(a: real, b: real): real { if a >= b then a else b }

  /** `Math.max(lo, Math.min(hi, v))`. */
  function Clamp(v: real, lo: real, hi: real): (r: real)
    requires lo <= hi
    ensures lo <= r <= hi
    ensures lo <= v <= hi ==> r == v
    ensures v < lo ==> r == lo
    ensures hi < v ==> r == hi
  {
    Max(lo, Min(hi, v))
  }

  /** Which layer a gesture moves; `NoLayer` is the idle value `null`. */
  datatype DragMode = NoLayer | ImageLayer | TextLayer

  /**
   * The gesture snapshot taken on pointer-down. `resizeHandle` is the handle name the
   * resize handles pass in ("top-left", ...), or `None` outside a resize.
   */
  datatype DragState = DragState(
    isDragging: bool,
    isResizing: bool,
    startX: real,
    startY: real,
    startScale: real,
    startPosition: Vec2,
    resizeHandle: Option<string>,
    dragMode: DragMode)

  /** The record the editor starts with and returns to on pointer-up. */
  const Idle: DragState := DragState(false, false, 0.0, 0.0, 1.0, Origin, None, NoLayer)

  predicate InGesture(d: DragState)
  {
    d.isDragging || d.isResizing
  }

  /** One axis of a drag: the start value moved by half the pointer travel, then clamped. */
  function DragAxis(start: real, delta: real, maxOffset: real): (v: real)
    requires 0.0 <= maxOffset
    ensures -maxOffset <= v <= maxOffset
    ensures -maxOffset <= start + delta / 2.0 <= maxOffset ==> v == start + delta / 2.0
    ensures start + delta / 2.0 < -maxOffset ==> v == -maxOffset
    ensures maxOffset < start + delta / 2.0 ==> v == maxOffset
  {
    Clamp(start + delta * Damping, -maxOffset, maxOffset)
  }

  /** A drag moves each axis independently from the snapshot position. */
  function DraggedPosition(start: Vec2, delta: Vec2, maxOffset: real): (p: Vec2)
    requires 0.0 <= maxOffset
    ensures p.x == DragAxis(start.x, delta.x, maxOffset)
    ensures p.y == DragAxis(start.y, delta.y, maxOffset)
  {
    Vec2(DragAxis(start.x, delta.x, maxOffset), DragAxis(start.y, delta.y, maxOffset))
  }

  /**
   * The direction in which dragging a handle enlarges the image: away from the centre
   * along that corner's diagonal. An unknown handle behaves as bottom-right.
   */
  function Outward(handle: Option<string>): (u: Vec2)
    ensures (u.x == 1.0 || u.x == -1.0) && (u.y == 1.0 || u.y == -1.0)
  {
    match handle
    case Some(h) =>
      if h == "top-left" then Vec2(-1.0, -1.0)
      else if h == "top-right" then Vec2(1.0, -1.0)
      else if h == "bottom-left" then Vec2(-1.0, 1.0)
      else Vec2(1.0, 1.0)
    case None => Vec2(1.0, 1.0)
  }

  /** The corner-specific scale factor, written per handle as the editor's switch does. */
  function ResizeFactor(handle: Option<string>, delta: Vec2): (f: real)
    ensures f == 1.0 + ResizeRate * (Outward(handle).x * delta.x + Outward(handle).y * delta.y)
  {
    var dx, dy := delta.x, delta.y;
    match handle
    case Some(h) =>
      if h == "top-left" then 1.0 - (dx + dy) * ResizeRate
      else if h == "top-right" then 1.0 + (dx - dy) * ResizeRate
      else if h == "bottom-left" then 1.0 + (-dx + dy) * ResizeRate
      else if h == "bottom-right" then 1.0 + (dx + dy) * ResizeRate
      else 1.0 + (dx + dy) * ResizeRate
    case None => 1.0 + (dx + dy) * ResizeRate
  }

  /** The new scale of a resize: the snapshot scale times the factor, clamped to [0.3, 3]. */
  function ResizedScale(startScale: real, handle: Option<string>, delta: Vec2): (s: real)
    ensures MinScale <= s <= MaxScale
    ensures MinScale <= startScale * ResizeFactor(handle, delta) <= MaxScale ==>
              s == startScale * ResizeFactor(handle, delta)
  {
    Clamp(startScale * ResizeFactor(handle, delta), MinScale, MaxScale)
  }

  /** Pulling any handle outward by `t` pixels on both axes never shrinks the factor below 1. */
  lemma OutwardPullGrows(handle: Option<string>, t: real)
    requires 0.0 <= t
    ensures ResizeFactor(handle, Vec2(Outward(handle).x * t, Outward(handle).y * t)) >= 1.0
  {
    var u := Outward(handle);
    assert u.x * (u.x * t) == t && u.y * (u.y * t) == t;
  }

  /** The parts of the editor state a pointer move can write. */
  datatype Layers = Layers(imagePosition: Vec2, textPosition: Vec2, imageScale: real)

  /** The bounds every reachable editor state keeps. */
  predicate InBounds(l: Layers)
  {
    && -ImageMaxOffset <= l.imagePosition.x <= ImageMaxOffset
    && -ImageMaxOffset <= l.imagePosition.y <= ImageMaxOffset
    && -TextMaxOffset <= l.textPosition.x <= TextMaxOffset
    && -TextMaxOffset <= l.textPosition.y <= TextMaxOffset
    && MinScale <= l.imageScale <= MaxScale
  }

  /** The pointer travel since the snapshot. */
  function Delta(d: DragState, pointer: Vec2): Vec2
  {
    Vec2(pointer.x - d.startX, pointer.y - d.startY)
  }

  /**
   * The effect of one pointer move at `pointer` on the layers. The snapshot `d` is only read:
   * a move never changes the gesture record.
   */
  function AfterMove(d: DragState, l: Layers, pointer: Vec2): (r: Layers)
    // outside a gesture nothing changes
    ensures !InGesture(d) ==> r == l
    // an image drag writes the image position only
    ensures d.isDragging && d.dragMode == ImageLayer ==>
              r == l.(imagePosition := DraggedPosition(d.startPosition, Delta(d, pointer), ImageMaxOffset))
    // a text drag writes the text position only
    ensures d.isDragging && d.dragMode == TextLayer ==>
              r == l.(textPosition := DraggedPosition(d.startPosition, Delta(d, pointer), TextMaxOffset))
    // a resize writes the image scale only, and only for the image layer
    ensures !d.isDragging && d.isResizing && d.dragMode == ImageLayer ==>
              r == l.(imageScale := ResizedScale(d.startScale, d.resizeHandle, Delta(d, pointer)))
    // a drag with no layer, or a resize of another layer, changes nothing
    ensures (d.isDragging && d.dragMode == NoLayer) || (!d.isDragging && d.dragMode != ImageLayer) ==> r == l
    ensures InBounds(l) ==> InBounds(r)
  {
    if !d.isDragging && !d.isResizing then l
    else
      var delta := Delta(d, pointer);
      if d.isDragging then
        if d.dragMode == ImageLayer then
          l.(imagePosition := DraggedPosition(d.startPosition, delta, ImageMaxOffset))
        else if d.dragMode == TextLayer then
          l.(textPosition := DraggedPosition(d.startPosition, delta, TextMaxOffset))
        else l
      else if d.dragMode == ImageLayer then
        l.(imageScale := ResizedScale(d.startScale, d.resizeHandle, delta))
      else l
  }

  /** A second move overrides the first: the result depends on the last pointer position only. */
  lemma LastMoveWins(d: DragState, l: Layers, p: Vec2, q: Vec2)
    ensures AfterMove(d, AfterMove(d, l, p), q) == AfterMove(d, l, q)
  {
  }

  /** The layers after a whole stream of pointer moves within one gesture. */
  function ApplyMoves(d: DragState, l: Layers, pointers: seq<Vec2>): (r: Layers)
    ensures InBounds(l) ==> InBounds(r)
    decreases |pointers|
  {
    if pointers == [] then l else ApplyMoves(d, AfterMove(d, l, pointers[0]), pointers[1..])
  }

  /**
   * The intermediate moves of a gesture do not matter: after any non-empty stream of moves
   * the layers are those that the last move alone produces from the starting layers.
   */
  lemma {:induction false} PathIndependent(d: DragState, l: Layers, pointers: seq<Vec2>)
    requires pointers != []
    ensures ApplyMoves(d, l, pointers) == AfterMove(d, l, pointers[|pointers| - 1])
    decreases |pointers|
  {
    if |pointers| > 1 {
      var rest := pointers[1..];
      PathIndependent(d, AfterMove(d, l, pointers[0]), rest);
      assert rest[|rest| - 1] == pointers[|pointers| - 1];
      LastMoveWins(d, l, pointers[0], pointers[|pointers| - 1]);
    }
  }

  /** No stream of moves takes the scale out of [0.3, 3], however far the pointer travels. */
  lemma ScaleStaysInRange(d: DragState, l: Layers, pointers: seq<Vec2>)
    requires MinScale <= l.imageScale <= MaxScale
    requires pointers != []
    requires d.isResizing && !d.isDragging && d.dragMode == ImageLayer
    ensures MinScale <= ApplyMoves(d, l, pointers).imageScale <= MaxScale
    ensures ApplyMoves(d, l, pointers).imagePosition == l.imagePosition
    ensures ApplyMoves(d, l, pointers).textPosition == l.textPosition
  {
    PathIndependent(d, l, pointers);
  }
}

=== FILE: wrappers.dfy ===
/** Optional values and failures, used for the nullable fields and the thrown errors of the editor. */
module Wrappers {

  /** A value that may be absent (`null` or `undefined` in the editor). */
  datatype Option<+T> = None | Some(value: T)

  /** The outcome of an operation that either returns a value or throws. */
  datatype Result<+R, +E> = Success(value: R) | Failure(error: E)
}
